=== FILE: README.md ===
# MembersData: a Dafny model of the admin member table

The repository is one React component, `MembersData` (src/MembersData.jsx). It
fetches a list of member records (`id`, `name`, `email`, `role`) and shows them
in a table. The user can search the list, delete one row, select rows and
delete them after a confirmation dialog, and toggle a row between plain display
and inline edit.

Once the rendering and the table library are set aside, the component is a
sequential state machine over seven `useState` hooks. This project models that
state as one immutable record, `MembersTable.State`. Each event handler is a
pure transition function on it:

| file | module | contents |
|---|---|---|
| wrappers.dfy | `Wrappers` | `Option`, for `editingId` (initially `null`) |
| text.dfy | `Text` | ASCII `Lower`, `Contains` (`includes`), `Join` |
| seqs.dfy | `Seqs` | generic `Filter` (`Array.prototype.filter`), `IsSubsequence`, and lemmas about them |
| members.dfy | `Members` | the `Member` record, the search predicate `MatchesQuery`, the dialog's id list |
| members_table.dfy | `MembersTable` | `State`, the handlers, the `Event` type, and `Step`/`Run` over event sequences |
| table_properties.dfy | `TableProperties` | properties that relate several handler calls, and worked examples |

The network result is a parameter of `Load` (event `Fetched`). The rows the
table library reports as selected are a parameter of `SetSelection`. The key
pressed is a parameter of `KeyDown`. The new text of the search box is a
parameter of `Search`.

## Behaviour of the code that the model keeps

- The single delete and the bulk delete change only the shown list
  `membersData`. They never change the fetched list `originalData`
  (src/MembersData.jsx:151, :156). Every search starts again from
  `originalData`, so a deleted row comes back once the query is cleared or
  matches it. See `SearchAfterDeleteOne`, `ClearingSearchRestoresDeletedRow`
  and `ExampleDeleteThenClear`: deleting id "1" and then clearing the query
  shows both rows again, because neither delete touches `originalData`.
- So the shown list need not equal the fetched list when the query is empty:
  after a delete with an empty query it is a proper sub-sequence of it. The
  invariant that holds in every reachable state is `DisplayedWithinCanonical`:
  the shown list is an order-preserving sub-sequence of the fetched list.
  Pressing Enter in an empty search box shows the whole fetched list again,
  deleted rows included (`EnterOnEmptyQueryShowsFetchedList`).
- Save only clears `editMode`. It keeps `editingId` and writes nothing back to
  any member (src/MembersData.jsx:116-118). The text typed into the cells lives
  in per-cell hooks, which the cells keep rendering outside edit mode
  (src/MembersData.jsx:47, 73, 101): after Save the edited text stays on screen
  while the row is mounted, but the record keeps its old fields, and search
  still matches the old values.
- A fetch that resolves after the user has typed a query shows the whole
  fetched list, unfiltered (src/MembersData.jsx:189). `Load` does the same.
- Enter re-runs `handleSearch` with the event's target value. The input is
  controlled (`value={searchQuery}`), so that value is the recorded query, and
  `KeyDown` searches with `s.searchQuery`.

## Model

| member | source | states |
|---|---|---|
| `MembersTable.Load` | src/MembersData.jsx:184-191 | the fetched list becomes both the shown and the canonical list; nothing else changes; the shown list is then within the canonical one |
| `MembersTable.Search` | src/MembersData.jsx:160-176 | records the query; an empty query shows exactly the fetched list; otherwise shows an order-preserving sub-sequence of the fetched list whose members all match, keeping every matching member with all its copies; only the query and the shown list change |
| `MembersTable.KeyDown` | src/MembersData.jsx:178-182 | Enter re-searches with the recorded query and gives the search result for it; any other key leaves the state unchanged |
| `MembersTable.DeleteOne` | src/MembersData.jsx:150-152 | no shown member has the deleted id; every member with another id keeps its multiplicity and relative order; the fetched list and every other field are unchanged |
| `MembersTable.BulkDelete` | src/MembersData.jsx:154-158 | dialog closed and selection empty; no shown member was selected; every unselected member keeps its multiplicity and order; the fetched list is unchanged |
| `MembersTable.OpenModal` | src/MembersData.jsx:230-236 | the dialog is open afterwards exactly when it was open or some row is selected (the button is disabled for an empty selection); nothing else changes |
| `MembersTable.CloseModal` | src/MembersData.jsx:267-272 | the dialog is closed and nothing else changes |
| `MembersTable.SetSelection` | src/MembersData.jsx:239 | the reported rows become the selection and nothing else changes |
| `MembersTable.Initial` | src/MembersData.jsx:6-15 | every hook at its initial value: nothing fetched, shown or selected, empty query, dialog closed, `editingId` is `None` (for `null`) and edit mode off, so no row is editing |
| `MembersTable.IsEditing` | src/MembersData.jsx:122 | a row is editing exactly when edit mode is on and the remembered id is that row's id (the same test appears at lines 39, 65 and 93) |
| `MembersTable.Edit` | src/MembersData.jsx:111-114 | afterwards a row is editing exactly when its id is the clicked one; only `editingId` and `editMode` change |
| `MembersTable.Save` | src/MembersData.jsx:116-118 | clears the edit mode, so afterwards no row is editing; only `editMode` changes, so the remembered id and all data are kept |
| `MembersTable.ActionClick` | src/MembersData.jsx:120-136 | the button shows Save exactly while its row is editing, so a click flips that row's editing state, leaves no other row editing; only `editingId` and `editMode` change |
| `MembersTable.Step` | src/MembersData.jsx:198-285 | only a fetch replaces the fetched list; every handler keeps the shown list within the fetched list |
| `MembersTable.Run` | src/MembersData.jsx:198-285 | over any event sequence without a fetch the fetched list is unchanged, and the shown list stays within it |
| `Members.MatchesQuery` | src/MembersData.jsx:168-172 | a member matches exactly when the lower-cased query is contained (occurs at some index, per `Text.Contains`) in one of its four lower-cased fields; the empty query matches every member |
| `Text.Lower` | src/MembersData.jsx:169-172 | the result has the input's length, contains no capital letter, and each character is the ASCII lower-case form of the input character at the same position |
| `Text.Join` | src/MembersData.jsx:263 | no parts join to ""; otherwise the text starts with the first part and its length is the parts' total length plus one separator between each pair of neighbours |
| `MembersTable.EnterOnEmptyQueryShowsFetchedList` | src/MembersData.jsx:163-164 | Enter with an empty search box shows exactly the fetched list, whatever was deleted before |
| `Members.MatchesQueryIgnoresCase` | src/MembersData.jsx:169-172 | the search predicate gives the same answer for a query and its lower-cased form |
| `Members.Ids` | src/MembersData.jsx:263 | one id per selected row, the i-th id being the i-th row's id |
| `Members.SelectedIdsText` | src/MembersData.jsx:263 | the dialog text is empty for no selection, starts with the first id, contains every selected id, and has the ids' total length plus two characters per separator |
| `Members.SelectedIdsTextAppend` | src/MembersData.jsx:263 | the text for two selections joined is their texts joined by ", " |
| `Text.Contains` | src/MembersData.jsx:169-172 | `includes` holds exactly when the query occurs at some index of the field |
| `Text.LowerIdempotent` | src/MembersData.jsx:169-172 | lower-casing an already lower-cased string changes nothing |
| `Seqs.Filter` | src/MembersData.jsx:166-174 | the kept elements all satisfy the predicate, every satisfying element is kept with its multiplicity, and the result is an order-preserving sub-sequence of the input |
| `Seqs.FilterUnique` | src/MembersData.jsx:166-174 | any order-preserving sub-sequence that keeps exactly the satisfying elements with their multiplicities is the filter's result |
| `Seqs.SubsequenceTransitive` | src/MembersData.jsx:151 | a sub-sequence of a sub-sequence of `c` is a sub-sequence of `c` (used to carry the shown-within-fetched invariant through the filters at lines 151 and 156) |
| `TableProperties.SearchIsExact` | src/MembersData.jsx:163-174 | the shown list after a search is the only list meeting the search characterisation |
| `TableProperties.SearchNotCumulative` | src/MembersData.jsx:167 | a search after another search gives the same state as the second search alone |
| `TableProperties.SearchIdempotent` | src/MembersData.jsx:160-176 | searching twice with one query is searching once |
| `TableProperties.EnterAfterSearchChangesNothing` | src/MembersData.jsx:178-181 | pressing Enter after typing a query leaves the state as typing left it |
| `TableProperties.SearchIgnoresCase` | src/MembersData.jsx:169-172 | a query and its lower-cased form show the same rows |
| `TableProperties.SearchAfterDeleteOne` | src/MembersData.jsx:151 | a search after a single delete gives the same state as the search without the delete |
| `TableProperties.SearchAfterBulkDelete` | src/MembersData.jsx:156 | a search after a bulk delete shows the rows the search without the delete shows |
| `TableProperties.ClearingSearchRestoresDeletedRow` | src/MembersData.jsx:163-164 | a fetched row deleted by id is shown again once the query is cleared |
| `TableProperties.DeleteOneIsExact` | src/MembersData.jsx:151 | the single delete's result is the only list meeting its contract |
| `TableProperties.BulkDeleteIsExact` | src/MembersData.jsx:156 | the bulk delete's result is the only list meeting its contract |
| `TableProperties.EditingIsExclusive` | src/MembersData.jsx:122 | two rows that are both editing have the same id |
| `TableProperties.EditSwitchesRow` | src/MembersData.jsx:111-114 | editing a second row ends the first row's edit |
| `TableProperties.EditThenSaveCommitsNothing` | src/MembersData.jsx:111-118 | edit then save gives the starting state with the clicked id remembered and edit mode off: no row editing, no member field written |
| `TableProperties.ActionClickTwice` | src/MembersData.jsx:120-136 | two clicks on a viewing row's button give the starting state with that id remembered and edit mode off |
| `TableProperties.ModalNeedsSelection` | src/MembersData.jsx:231-233 | the trigger opens a closed dialog only when some row is selected |
| `TableProperties.ReachableDisplayedWithinCanonical` | src/MembersData.jsx:6-15 | from the initial hook values, every run of events keeps the shown list within the fetched list |
| `TableProperties.ExampleAMissesB` | src/MembersData.jsx:169-172 | the member ("1", "A", "a@x.com", "r1") does not match "b" |
| `TableProperties.ExampleBMatchesB` | src/MembersData.jsx:169-172 | the member ("2", "B", "b@x.com", "r2") matches "b" through its name, ignoring case |
| `TableProperties.ExampleBothMatchR` | src/MembersData.jsx:169-172 | both example members match "r" through their roles |
| `TableProperties.ExampleSearchB` | src/MembersData.jsx:166-174 | searching the two example members for "b" shows only the second |
| `TableProperties.ExampleSearchR` | src/MembersData.jsx:166-174 | searching the two example members for "r" shows both in order |
| `TableProperties.ExampleDeleteThenClear` | src/MembersData.jsx:150-164 | deleting id "1" shows only member "2", and clearing the query then shows both members again |
| `TableProperties.ExampleSelectedIds` | src/MembersData.jsx:263 | the dialog lists the two example ids as "1, 2" |

## Left out

- Rendering, styling and the `react-data-table-component` library: pagination (10 rows per page), hover highlighting, `selectableRowsVisibleOnly` and `clearSelectedRows` are behaviour of a library that is not part of this model. The selection is whatever `SetSelection` is given, so "the selection lies within the visible page" is not modelled.
- The network fetch and JSON parsing (src/MembersData.jsx:185-188): the fetched array is the parameter of `Load`. The code handles no failure: a rejected fetch or JSON parse rejects the promise of `fetchData` with nothing to catch it, lines 189-190 never run, and both lists stay unchanged, which is a run with no `Fetched` event.
- The per-cell `useState` edit buffers (src/MembersData.jsx:31, 57, 85): they are never committed to any member, so they have no effect on the modelled state.
- The search button's `onClick={handleSearch}` (src/MembersData.jsx:213): its event target is the button or the icon inside it, not the input, so what it does depends on where the click lands: on the icon the target's `value` is undefined, the query becomes undefined and the filter calls `toLowerCase` on it; on the button's own area the value is `""` and the search is cleared. Its `disabled` state (line 214) is left out with it. Search is modelled with the query as an explicit parameter only.
- Text.Lower: lower-cases ASCII letters only, where JavaScript's `toLowerCase` follows Unicode case mapping.
- MembersTable.BulkDelete: `selectedRows.includes(item)` compares object references; the model compares records by value, so two distinct rows with identical fields are deleted together.
- `Step` and `Run` accept every event in every state, including some the rendered page cannot produce there (the dialog's Close and Delete while it is closed, a row's delete or edit/save click for an id that is not shown); this over-approximation only widens the set of runs the invariants are proved for.
- The mount-time `useEffect` (src/MembersData.jsx:193-195) is modelled as a `Fetched` event that may arrive at any point of an event sequence; React's render scheduling and update batching are not modelled, and events are processed one at a time.

=== FILE: members.dfy ===
/** The member record, the search predicate applied to it, and the list of
    selected ids the confirmation dialog shows. */
module Members {
  import opened Text

  /** One row of the fetched JSON array. */
  datatype Member = Member(id: string, name: string, email: string, role: string)

  /** The four searchable fields of a member, in the order they are tested. */
  function Fields(m: Member): seq<string> {
    [m.id, m.name, m.email, m.role]
  }

  /** The predicate `handleSearch` filters with for a non-empty query: the
      lower-cased query is a substring of the lower-cased id, name, email
      or role. */
  function MatchesQuery(m: Member, q: string): (r: bool)
    ensures r <==> exists k :: 0 <= k < 4 && Contains(Lower(Fields(m)[k]), Lower(q))
    ensures q == "" ==> r
  {
    var lq := Lower(q);
    var r := Contains(Lower(m.id), lq) || Contains(Lower(m.name), lq)
      || Contains(Lower(m.email), lq) || Contains(Lower(m.role), lq);
    assert r <==> exists k :: 0 <= k < 4 && Contains(Lower(Fields(m)[k]), lq) by {
      if r {
        if Contains(Lower(m.id), lq) { assert Fields(m)[0] == m.id; }
        else if Contains(Lower(m.name), lq) { assert Fields(m)[1] == m.name; }
        else if Contains(Lower(m.email), lq) { assert Fields(m)[2] == m.email; }
        else { assert Fields(m)[3] == m.role; }
      }
    }
    assert q == "" ==> r by {
      if q == "" {
        assert OccursAt(Lower(m.id), lq, 0);
      }
    }
    r
  }

  /** The search predicate does not see the case of the query's letters. */
  lemma MatchesQueryIgnoresCase(m: Member, q: string)
    ensures MatchesQuery(m, Lower(q)) == MatchesQuery(m, q)
  {
    LowerIdempotent(q);
  }

  /** `rows.map((row) => row.id)`. */
  function Ids(rows: seq<Member>): (r: seq<string>)
    ensures |r| == |rows|
    ensures forall i :: 0 <= i < |rows| ==> r[i] == rows[i].id
  {
    seq(|rows|, i requires 0 <= i < |rows| => rows[i].id)
  }

  /** The text of the dialog's "Selected IDs" line:
      `selectedRows.map((row) => row.id).join(", ")`. */
  function SelectedIdsText(rows: seq<Member>): (r: string)
    ensures |rows| == 0 ==> r == ""
    ensures |rows| > 0 ==> rows[0].id <= r
    ensures |rows| > 0 ==> |r| == TotalLength(Ids(rows)) + 2 * (|rows| - 1)
    ensures forall i :: 0 <= i < |rows| ==> Contains(r, rows[i].id)
  {
    var r := Join(Ids(rows), ", ");
    forall i | 0 <= i < |rows|
      ensures Contains(r, rows[i].id)
    {
      JoinContainsEach(Ids(rows), ", ", i);
    }
    r
  }

  /** Selecting more rows appends their ids after a ", " separator. */
  lemma SelectedIdsTextAppend(a: seq<Member>, b: seq<Member>)
    requires |a| > 0 && |b| > 0
    ensures SelectedIdsText(a + b) == SelectedIdsText(a) + ", " + SelectedIdsText(b)
  {
    assert Ids(a + b) == Ids(a) + Ids(b);
    JoinAppend(Ids(a), Ids(b), ", ");
  }
}

=== FILE: members_table.dfy ===
/** The state of the `MembersData` component and one pure transition
    function per event handler. */
module MembersTable {
  import opened Wrappers
  import opened Seqs
  import opened Members

  /** The component's `useState` hooks, as one immutable record. */
  datatype State = State(
    originalData: seq<Member>,  // the list as last fetched
    membersData: seq<Member>,   // the list the table shows
    selectedRows: seq<Member>,  // rows checked in the table
    isShowModal: bool,          // the bulk-delete confirmation dialog is open
    searchQuery: string,        // the search input's value
    editingId: Option<string>,  // the row id last put into edit mode
    editMode: bool)             // whether that row is currently in edit mode

  /** The state before the fetch has resolved: every hook at its initial
      value, with `null` as `None`. Nothing is shown, selected or editing,
      and the dialog is closed. */
  function Initial(): (s: State)
    ensures s.originalData == [] && s.membersData == [] && s.selectedRows == []
    ensures s.searchQuery == "" && !s.isShowModal
    ensures s.editingId == None && !s.editMode
    ensures forall r :: !IsEditing(s, r)
    ensures DisplayedWithinCanonical(s)
  {
    State([], [], [], false, "", None, false)
  }

  /** The table shows a sub-sequence of the fetched list. */
  predicate DisplayedWithinCanonical(s: State) {
    IsSubsequence(s.membersData, s.originalData)
  }

  /** The data part of `fetchData`: the fetched list becomes both the shown
      and the canonical list; nothing else changes. */
  function Load(s: State, data: seq<Member>): (s': State)
    ensures s'.membersData == data && s'.originalData == data
    ensures s' == s.(membersData := s'.membersData, originalData := s'.originalData)
    ensures DisplayedWithinCanonical(s')
  {
    SubsequenceReflexive(data);
    s.(membersData := data, originalData := data)
  }

  /** What `handleSearch` shows for the query `q` given the fetched list:
      the whole list for the empty query; otherwise the order-preserving
      sub-sequence of the fetched list that keeps every member matching `q`
      (with all its copies) and nothing else. */
  ghost predicate SearchResult(original: seq<Member>, q: string, shown: seq<Member>) {
    if q == "" then shown == original
    else
      && IsSubsequence(shown, original)
      && (forall m :: m in shown ==> MatchesQuery(m, q))
      && (forall m :: MatchesQuery(m, q) ==> multiset(shown)[m] == multiset(original)[m])
  }

  /** `handleSearch` with the input's new value `q`: records the query and
      recomputes the shown list from the fetched list, never from the list
      currently shown. */
  function Search(s: State, q: string): (s': State)
    ensures s'.searchQuery == q
    ensures SearchResult(s.originalData, q, s'.membersData)
    ensures s' == s.(searchQuery := q, membersData := s'.membersData)
    ensures DisplayedWithinCanonical(s')
  {
    if q == "" then
      SubsequenceReflexive(s.originalData);
      s.(searchQuery := q, membersData := s.originalData)
    else
      s.(searchQuery := q, membersData := Filter(s.originalData, m => MatchesQuery(m, q)))
  }

  /** `handleKeyDown`: Enter re-runs the search with the input's current
      value, which is the recorded query; every other key does nothing. */
  function KeyDown(s: State, key: string): (s': State)
    ensures key != "Enter" ==> s' == s
    ensures key == "Enter" ==> s'.searchQuery == s.searchQuery
    ensures key == "Enter" ==> SearchResult(s.originalData, s.searchQuery, s'.membersData)
    ensures s' == s.(membersData := s'.membersData)
  {
    if key == "Enter" then Search(s, s.searchQuery) else s
  }

  /** Enter in an empty search box shows the whole fetched list again,
      including every row deleted since the fetch. */
  lemma EnterOnEmptyQueryShowsFetchedList(s: State)
    requires s.searchQuery == ""
    ensures KeyDown(s, "Enter").membersData == s.originalData
  {
  }

  /** `handleDeleteBtn(id)`: drops every shown member with that id, keeps
      the others in order, and leaves the fetched list alone. */
  function DeleteOne(s: State, id: string): (s': State)
    ensures forall m :: m in s'.membersData ==> m.id != id
    ensures forall m: Member :: m.id != id ==> multiset(s'.membersData)[m] == multiset(s.membersData)[m]
    ensures IsSubsequence(s'.membersData, s.membersData)
    ensures s' == s.(membersData := s'.membersData)
    ensures DisplayedWithinCanonical(s) ==> DisplayedWithinCanonical(s')
  {
    var kept := Filter(s.membersData, (m: Member) => m.id != id);
    assert DisplayedWithinCanonical(s) ==> IsSubsequence(kept, s.originalData) by {
      if DisplayedWithinCanonical(s) {
        SubsequenceTransitive(kept, s.membersData, s.originalData);
      }
    }
    s.(membersData := kept)
  }

  /** `handleMulDeleteRows` (the dialog's Delete button): closes the dialog,
      drops every shown member that is among the selected rows, keeps the
      others in order, clears the selection and leaves the fetched list
      alone. */
  function BulkDelete(s: State): (s': State)
    ensures !s'.isShowModal && s'.selectedRows == []
    ensures forall m :: m in s'.membersData ==> m !in s.selectedRows
    ensures forall m: Member :: m !in s.selectedRows ==> multiset(s'.membersData)[m] == multiset(s.membersData)[m]
    ensures IsSubsequence(s'.membersData, s.membersData)
    ensures s' == s.(membersData := s'.membersData, selectedRows := [], isShowModal := false)
    ensures DisplayedWithinCanonical(s) ==> DisplayedWithinCanonical(s')
  {
    var selected := s.selectedRows;
    var kept := Filter(s.membersData, (m: Member) => m !in selected);
    assert DisplayedWithinCanonical(s) ==> IsSubsequence(kept, s.originalData) by {
      if DisplayedWithinCanonical(s) {
        SubsequenceTransitive(kept, s.membersData, s.originalData);
      }
    }
    s.(isShowModal := false, membersData := kept, selectedRows := [])
  }

  /** The table's bulk-delete button: it is disabled while nothing is
      selected, so a click opens the dialog only when some row is selected. */
  function OpenModal(s: State): (s': State)
    ensures s'.isShowModal <==> s.isShowModal || |s.selectedRows| > 0
    ensures s' == s.(isShowModal := s'.isShowModal)
  {
    if |s.selectedRows| == 0 then s else s.(isShowModal := true)
  }

  /** The dialog's Close button: dismisses the dialog and changes nothing else. */
  function CloseModal(s: State): (s': State)
    ensures !s'.isShowModal
    ensures s' == s.(isShowModal := s'.isShowModal)
  {
    s.(isShowModal := false)
  }

  /** The table's `onSelectedRowsChange`: the rows the table reports become
      the selection. */
  function SetSelection(s: State, rows: seq<Member>): (s': State)
    ensures s'.selectedRows == rows
    ensures s' == s.(selectedRows := s'.selectedRows)
  {
    s.(selectedRows := rows)
  }

  /** The condition every cell tests to decide whether row `rowId` shows
      inputs (and the Save button) instead of plain text (and the Edit
      button). */
  function IsEditing(s: State, rowId: string): (r: bool)
    ensures r <==> s.editMode && s.editingId.Some? && s.editingId.value == rowId
  {
    s.editMode && s.editingId == Some(rowId)
  }

  /** `handleEditClick` of row `id`: afterwards exactly that row is editing. */
  function Edit(s: State, id: string): (s': State)
    ensures forall r :: IsEditing(s', r) <==> r == id
    ensures s' == s.(editingId := s'.editingId, editMode := s'.editMode)
  {
    s.(editingId := Some(id), editMode := true)
  }

  /** `handleSaveClick`: leaves edit mode; the remembered id stays and the
      per-cell edits are not written back to any member. */
  function Save(s: State): (s': State)
    ensures !s'.editMode
    ensures forall r :: !IsEditing(s', r)
    ensures s' == s.(editMode := s'.editMode)
  {
    s.(editMode := false)
  }

  /** A click on the edit/save button of row `rowId`: the button is Save
      while that row is editing and Edit otherwise, so the click toggles
      that row and leaves no other row editing. */
  function ActionClick(s: State, rowId: string): (s': State)
    ensures IsEditing(s', rowId) <==> !IsEditing(s, rowId)
    ensures forall r :: r != rowId ==> !IsEditing(s', r)
    ensures s' == s.(editingId := s'.editingId, editMode := s'.editMode)
  {
    if IsEditing(s, rowId) then Save(s) else Edit(s, rowId)
  }

  /** The events the component reacts to. */
  datatype Event =
    | Fetched(data: seq<Member>)
    | SearchChanged(query: string)
    | KeyPressed(key: string)
    | DeleteClicked(id: string)
    | EditSaveClicked(rowId: string)
    | SelectionChanged(rows: seq<Member>)
    | BulkDeleteClicked
    | ModalClosed
    | ModalConfirmed

  /** Dispatch one event to its handler. Only a fetch replaces the fetched
      list, and every handler keeps the shown list inside it. */
  function Step(s: State, e: Event): (s': State)
    ensures !e.Fetched? ==> s'.originalData == s.originalData
    ensures DisplayedWithinCanonical(s) ==> DisplayedWithinCanonical(s')
  {
    match e
    case Fetched(data) => Load(s, data)
    case SearchChanged(q) => Search(s, q)
    case KeyPressed(key) => KeyDown(s, key)
    case DeleteClicked(id) => DeleteOne(s, id)
    case EditSaveClicked(rowId) => ActionClick(s, rowId)
    case SelectionChanged(rows) => SetSelection(s, rows)
    case BulkDeleteClicked => OpenModal(s)
    case ModalClosed => CloseModal(s)
    case ModalConfirmed => BulkDelete(s)
  }

  /** Process a sequence of events in order. Without a fetch the fetched
      list never changes, and in every reachable state the table shows a
      sub-sequence of it. */
  function Run(s: State, events: seq<Event>): (s': State)
    ensures (forall i :: 0 <= i < |events| ==> !events[i].Fetched?) ==> s'.originalData == s.originalData
    ensures DisplayedWithinCanonical(s) ==> DisplayedWithinCanonical(s')
    decreases |events|
  {
    if |events| == 0 then s else Run(Step(s, events[0]), events[1..])
  }
}

=== FILE: seqs.dfy ===
/** `Array.prototype.filter` and the order-preserving "sub-sequence of"
    relation the component's filters establish. */
module Seqs {

  /** `a` is obtained from `b` by deleting elements, keeping the rest in order. */
  predicate IsSubsequence<T(==)>(a: seq<T>, b: seq<T>)
    decreases |b|
  {
    if |a| == 0 then true
    else if |b| == 0 then false
    else (a[0] == b[0] && IsSubsequence(a[1..], b[1..])) || IsSubsequence(a, b[1..])
  }

  /** `xs.filter(p)`: the elements satisfying `p`, in their original order,
      each with its original multiplicity. */
  function Filter<T(==,!new)>(xs: seq<T>, p: T -> bool): (r: seq<T>)
    ensures |r| <= |xs|
    ensures forall x :: x in r ==> p(x)
    ensures forall x :: x in xs && p(x) ==> x in r
    ensures forall x :: multiset(r)[x] == if p(x) then multiset(xs)[x] else 0
    ensures IsSubsequence(r, xs)
  {
    if |xs| == 0 then []
    else
      var rest := Filter(xs[1..], p);
      assert xs == [xs[0]] + xs[1..];
      if p(xs[0]) then
        assert ([xs[0]] + rest)[1..] == rest;
        [xs[0]] + rest
      else
        rest
  }

  /** Every sequence is a sub-sequence of itself. */
  lemma {:induction false} SubsequenceReflexive<T>(a: seq<T>)
    ensures IsSubsequence(a, a)
    decreases |a|
  {
    if |a| > 0 {
      SubsequenceReflexive(a[1..]);
    }
  }

  /** Deleting from a sub-sequence gives a sub-sequence. */
  lemma {:induction false} SubsequenceTransitive<T>(a: seq<T>, b: seq<T>, c: seq<T>)
    requires IsSubsequence(a, b) && IsSubsequence(b, c)
    ensures IsSubsequence(a, c)
    decreases |a| + |b| + |c|
  {
    if |a| > 0 {
      if IsSubsequence(b, c[1..]) {
        SubsequenceTransitive(a, b, c[1..]);
      } else if a[0] == b[0] && IsSubsequence(a[1..], b[1..]) {
        SubsequenceTransitive(a[1..], b[1..], c[1..]);
      } else {
        SubsequenceTransitive(a, b[1..], c[1..]);
      }
    }
  }

  /** A sub-sequence never holds more copies of a value than the whole. */
  lemma {:induction false} SubsequenceMultiset<T>(a: seq<T>, b: seq<T>)
    requires IsSubsequence(a, b)
    ensures multiset(a) <= multiset(b)
    decreases |b|
  {
    if |a| > 0 {
      assert b == [b[0]] + b[1..];
      if a[0] == b[0] && IsSubsequence(a[1..], b[1..]) {
        SubsequenceMultiset(a[1..], b[1..]);
        assert a == [a[0]] + a[1..];
      } else {
        SubsequenceMultiset(a, b[1..]);
      }
    }
  }

  /** `Filter` is the ONLY sub-sequence of `xs` that keeps exactly the
      elements satisfying `p` with their multiplicities: the three
      properties in its contract determine its result. */
  lemma {:induction false} FilterUnique<T(!new)>(xs: seq<T>, p: T -> bool, r: seq<T>)
    requires IsSubsequence(r, xs)
    requires forall x :: x in r ==> p(x)
    requires forall x :: p(x) ==> multiset(r)[x] == multiset(xs)[x]
    ensures r == Filter(xs, p)
    decreases |xs|
  {
    if |xs| > 0 {
      var x, t := xs[0], xs[1..];
      assert xs == [x] + t;
      if |r| == 0 {
        if p(x) {
          assert false;
        }
        FilterUnique(t, p, r);
      } else if p(x) {
        if !(r[0] == x && IsSubsequence(r[1..], t)) {
          SubsequenceMultiset(r, t);
          assert false;
        }
        assert r == [x] + r[1..];
        FilterUnique(t, p, r[1..]);
      } else {
        assert r[0] in r;
        FilterUnique(t, p, r);
      }
    }
  }

  /** Filters with pointwise-equal predicates give the same result. */
  lemma {:induction false} FilterCongruent<T(!new)>(xs: seq<T>, p: T -> bool, q: T -> bool)
    requires forall x :: x in xs ==> p(x) == q(x)
    ensures Filter(xs, p) == Filter(xs, q)
    decreases |xs|
  {
    if |xs| > 0 {
      assert forall x :: x in xs[1..] ==> x in xs;
      FilterCongruent(xs[1..], p, q);
    }
  }
}

=== FILE: table_properties.dfy ===
/** Properties that relate several handler calls of the member table. */
module TableProperties {
  import opened Wrappers
  import opened Text
  import opened Seqs
  import opened Members
  import opened MembersTable

  /** The characterisation in `Search`'s contract pins the shown list down
      completely: any list satisfying it is the one `Search` shows. */
  lemma SearchIsExact(s: State, q: string, shown: seq<Member>)
    requires SearchResult(s.originalData, q, shown)
    ensures shown == Search(s, q).membersData
  {
    if q != "" {
      FilterUnique(s.originalData, m => MatchesQuery(m, q), shown);
    }
  }

  /** Searches are not cumulative: a search forgets whatever an earlier
      search showed. */
  lemma SearchNotCumulative(s: State, q1: string, q2: string)
    ensures Search(Search(s, q1), q2) == Search(s, q2)
  {
  }

  /** Searching twice with the same query is searching once. */
  lemma SearchIdempotent(s: State, q: string)
    ensures Search(Search(s, q), q) == Search(s, q)
  {
    SearchNotCumulative(s, q, q);
  }

  /** Pressing Enter after typing a query shows exactly what typing showed. */
  lemma EnterAfterSearchChangesNothing(s: State, q: string)
    ensures KeyDown(Search(s, q), "Enter") == Search(s, q)
  {
    SearchIdempotent(s, q);
  }

  /** Searching for a query and for its lower-cased form shows the same rows. */
  lemma SearchIgnoresCase(s: State, q: string)
    ensures Search(s, Lower(q)).membersData == Search(s, q).membersData
  {
    LowerEmpty(q);
    if q != "" {
      forall m | m in s.originalData
        ensures MatchesQuery(m, Lower(q)) == MatchesQuery(m, q)
      {
        MatchesQueryIgnoresCase(m, q);
      }
      FilterCongruent(s.originalData, m => MatchesQuery(m, Lower(q)), m => MatchesQuery(m, q));
    }
  }

  /** A search after a single delete shows what it would have shown without
      the delete: deleted rows come back whenever they match the query. */
  lemma SearchAfterDeleteOne(s: State, id: string, q: string)
    ensures Search(DeleteOne(s, id), q) == Search(s, q)
  {
  }

  /** A search after a bulk delete likewise shows the deleted rows again. */
  lemma SearchAfterBulkDelete(s: State, q: string)
    ensures Search(BulkDelete(s), q).membersData == Search(s, q).membersData
  {
  }

  /** Clearing the query shows the fetched list, whatever was deleted since. */
  lemma ClearingSearchRestoresDeletedRow(s: State, id: string)
    requires exists m :: m in s.originalData && m.id == id
    ensures exists m :: m in Search(DeleteOne(s, id), "").membersData && m.id == id
  {
  }

  /** The contract of `DeleteOne` pins its result down completely. */
  lemma DeleteOneIsExact(s: State, id: string, kept: seq<Member>)
    requires IsSubsequence(kept, s.membersData)
    requires forall m :: m in kept ==> m.id != id
    requires forall m: Member :: m.id != id ==> multiset(kept)[m] == multiset(s.membersData)[m]
    ensures kept == DeleteOne(s, id).membersData
  {
    FilterUnique(s.membersData, (m: Member) => m.id != id, kept);
  }

  /** The contract of `BulkDelete` pins its result down completely. */
  lemma BulkDeleteIsExact(s: State, kept: seq<Member>)
    requires IsSubsequence(kept, s.membersData)
    requires forall m :: m in kept ==> m !in s.selectedRows
    requires forall m: Member :: m !in s.selectedRows ==> multiset(kept)[m] == multiset(s.membersData)[m]
    ensures kept == BulkDelete(s).membersData
  {
    var selected := s.selectedRows;
    FilterUnique(s.membersData, (m: Member) => m !in selected, kept);
  }

  /** At most one row is ever editing. */
  lemma EditingIsExclusive(s: State, a: string, b: string)
    requires IsEditing(s, a) && IsEditing(s, b)
    ensures a == b
  {
  }

  /** Starting to edit a second row silently ends the first row's edit. */
  lemma EditSwitchesRow(s: State, id1: string, id2: string)
    requires id1 != id2
    ensures !IsEditing(Edit(Edit(s, id1), id2), id1)
    ensures IsEditing(Edit(Edit(s, id1), id2), id2)
  {
  }

  /** Edit then Save on a row returns every row to plain display, remembers
      the row id, and leaves all member data exactly as it was: the edits
      typed into the cells are never committed. */
  lemma EditThenSaveCommitsNothing(s: State, id: string)
    ensures forall r :: !IsEditing(Save(Edit(s, id)), r)
    ensures Save(Edit(s, id)) == s.(editingId := Some(id), editMode := false)
  {
  }

  /** Two clicks on the edit/save button of a row that is not editing
      return the table to plain display with member data untouched. */
  lemma ActionClickTwice(s: State, id: string)
    requires !IsEditing(s, id)
    ensures forall r :: !IsEditing(ActionClick(ActionClick(s, id), id), r)
    ensures ActionClick(ActionClick(s, id), id) == s.(editingId := Some(id), editMode := false)
  {
  }

  /** The dialog can only be open after the trigger if something is selected
      or it was already open. */
  lemma ModalNeedsSelection(s: State)
    requires !s.isShowModal
    requires OpenModal(s).isShowModal
    ensures |s.selectedRows| > 0
  {
  }

  /** Any run of events from the initial state keeps the shown list a
      sub-sequence of the fetched list. */
  lemma ReachableDisplayedWithinCanonical(events: seq<Event>)
    ensures DisplayedWithinCanonical(Run(Initial(), events))
  {
  }

  /** Two sample members. */
  const ExampleA := Member("1", "A", "a@x.com", "r1")
  const ExampleB := Member("2", "B", "b@x.com", "r2")

  /** Lower-casing the example strings. */
  lemma ExampleLowered()
    ensures Lower("b") == "b" && Lower("r") == "r"
    ensures Lower("1") == "1" && Lower("A") == "a" && Lower("B") == "b"
    ensures Lower("r1") == "r1" && Lower("r2") == "r2"
    ensures Lower("a@x.com") == "a@x.com"
  {
  }

  /** The member "A" contains no "b" in any field. */
  lemma ExampleAMissesB()
    ensures !MatchesQuery(ExampleA, "b")
  {
    ExampleLowered();
    ContainsChar("1", 'b');
    ContainsChar("a", 'b');
    ContainsChar("a@x.com", 'b');
    ContainsChar("r1", 'b');
  }

  /** The member "B" matches "b" through its name, ignoring case. */
  lemma ExampleBMatchesB()
    ensures MatchesQuery(ExampleB, "b")
  {
    ExampleLowered();
    ContainsChar("b", 'b');
  }

  /** Both members match "r" through their roles. */
  lemma ExampleBothMatchR()
    ensures MatchesQuery(ExampleA, "r") && MatchesQuery(ExampleB, "r")
  {
    ExampleLowered();
    ContainsChar("r1", 'r');
    ContainsChar("r2", 'r');
  }

  /** "b" finds only the member named "B". */
  lemma ExampleSearchB()
    ensures Search(Load(Initial(), [ExampleA, ExampleB]), "b").membersData == [ExampleB]
  {
    ExampleAMissesB();
    ExampleBMatchesB();
    var data := [ExampleA, ExampleB];
    assert data[1..] == [ExampleB];
    assert Filter(data, m => MatchesQuery(m, "b")) == [ExampleB];
  }

  /** "r" finds both members, in their fetched order. */
  lemma ExampleSearchR()
    ensures Search(Load(Initial(), [ExampleA, ExampleB]), "r").membersData == [ExampleA, ExampleB]
  {
    ExampleBothMatchR();
    var data := [ExampleA, ExampleB];
    assert data[1..] == [ExampleB];
    assert Filter(data, m => MatchesQuery(m, "r")) == data;
  }

  /** Deleting id "1" and then clearing the query shows BOTH members again,
      because the delete never touched the fetched list. */
  lemma ExampleDeleteThenClear()
    ensures DeleteOne(Load(Initial(), [ExampleA, ExampleB]), "1").membersData == [ExampleB]
    ensures Search(DeleteOne(Load(Initial(), [ExampleA, ExampleB]), "1"), "").membersData
            == [ExampleA, ExampleB]
  {
  }

  /** The dialog lists the selected ids separated by ", ". */
  lemma ExampleSelectedIds()
    ensures SelectedIdsText([ExampleA, ExampleB]) == "1, 2"
  {
    assert Ids([ExampleA, ExampleB]) == ["1", "2"];
    assert ["1", "2"][1..] == ["2"];
    assert Join(["1", "2"], ", ") == "1" + ", " + "2";
  }
}

=== FILE: text.dfy ===
/** String operations the component relies on: `toLowerCase`, `includes`
    and `Array.prototype.join`, restricted to what the member table uses. */
module Text {

  /** True for the ASCII capital letters 'A'..'Z'. */
  predicate IsUpper(c: char) {
    'A' <= c <= 'Z'
  }

  /** ASCII lower-casing of one character; every other character is kept. */
  function LowerChar(c: char): (r: char)
    ensures !IsUpper(r)
    ensures IsUpper(c) ==> r as int == c as int + 32
    ensures !IsUpper(c) ==> r == c
  {
    if IsUpper(c) then (c as int + 32) as char else c
  }

  /** `s.toLowerCase()`, restricted to ASCII letters. */
  function Lower(s: string): (r: string)
    ensures |r| == |s|
    ensures forall i :: 0 <= i < |r| ==> !IsUpper(r[i])
    ensures forall i :: 0 <= i < |s| ==> r[i] == LowerChar(s[i])
  {
    if |s| == 0 then "" else [LowerChar(s[0])] + Lower(s[1..])
  }

  /** Lower-casing twice is lower-casing once. */
  lemma LowerIdempotent(s: string)
    ensures Lower(Lower(s)) == Lower(s)
  {
    var l := Lower(s);
    assert forall i :: 0 <= i < |l| ==> LowerChar(l[i]) == l[i];
  }

  /** Only the empty string lower-cases to the empty string. */
  lemma LowerEmpty(s: string)
    ensures Lower(s) == "" <==> s == ""
  {
    assert |Lower(s)| == |s|;
  }

  /** `sub` occurs in `s` starting at index `i`. */
  predicate OccursAt(s: string, sub: string, i: int) {
    0 <= i && i + |sub| <= |s| && s[i..i + |sub|] == sub
  }

  /** `s.includes(sub)`: true exactly when `sub` occurs somewhere in `s`
      (the empty string occurs everywhere). */
  function Contains(s: string, sub: string): (r: bool)
    ensures r <==> exists i :: OccursAt(s, sub, i)
    decreases |s|
  {
    if sub <= s then
      assert OccursAt(s, sub, 0);
      true
    else if |s| == 0 then
      false
    else
      var r := Contains(s[1..], sub);
      assert r ==> exists i :: OccursAt(s, sub, i) by {
        if r {
          var j :| OccursAt(s[1..], sub, j);
          assert s[1..][j..j + |sub|] == s[j + 1..j + 1 + |sub|];
          assert OccursAt(s, sub, j + 1);
        }
      }
      assert (exists i :: OccursAt(s, sub, i)) ==> r by {
        if exists i :: OccursAt(s, sub, i) {
          var i :| OccursAt(s, sub, i);
          if i > 0 {
            assert s[1..][i - 1..i - 1 + |sub|] == s[i..i + |sub|];
            assert OccursAt(s[1..], sub, i - 1);
          }
        }
      }
      r
  }

  /** A one-character string occurs in `s` exactly when that character does. */
  lemma ContainsChar(s: string, c: char)
    ensures Contains(s, [c]) <==> c in s
  {
    if c in s {
      var i :| 0 <= i < |s| && s[i] == c;
      assert s[i..i + 1] == [c];
      assert OccursAt(s, [c], i);
    }
    if Contains(s, [c]) {
      var i :| OccursAt(s, [c], i);
      assert s[i] == s[i..i + 1][0];
    }
  }

  /** An occurrence in `b` is an occurrence in `a + b`, shifted by `|a|`. */
  lemma ContainsInSuffix(a: string, b: string, sub: string)
    requires Contains(b, sub)
    ensures Contains(a + b, sub)
  {
    var j :| OccursAt(b, sub, j);
    assert (a + b)[|a| + j..|a| + j + |sub|] == b[j..j + |sub|];
    assert OccursAt(a + b, sub, |a| + j);
  }

  /** An occurrence at the start of `a` is an occurrence in `a + b`. */
  lemma ContainsPrefix(a: string, b: string)
    ensures Contains(a + b, a)
  {
    assert (a + b)[0..|a|] == a;
    assert OccursAt(a + b, a, 0);
  }

  /** Sum of the lengths of the parts. */
  function TotalLength(parts: seq<string>): nat {
    if |parts| == 0 then 0 else |parts[0]| + TotalLength(parts[1..])
  }

  /** `parts.join(sep)`: the parts in order with `sep` between neighbours. */
  function Join(parts: seq<string>, sep: string): (r: string)
    ensures |parts| == 0 ==> r == ""
    ensures |parts| > 0 ==> |r| == TotalLength(parts) + |sep| * (|parts| - 1)
    ensures |parts| > 0 ==> parts[0] <= r
  {
    if |parts| == 0 then ""
    else if |parts| == 1 then parts[0]
    else parts[0] + sep + Join(parts[1..], sep)
  }

  /** Joining a concatenation puts one separator between the two joins. */
  lemma {:induction false} JoinAppend(a: seq<string>, b: seq<string>, sep: string)
    requires |a| > 0 && |b| > 0
    ensures Join(a + b, sep) == Join(a, sep) + sep + Join(b, sep)
    decreases |a|
  {
    if |a| == 1 {
      assert (a + b)[1..] == b;
    } else {
      assert (a + b)[1..] == a[1..] + b;
      JoinAppend(a[1..], b, sep);
    }
  }

  /** Every part can be found in the joined text. */
  lemma {:induction false} JoinContainsEach(parts: seq<string>, sep: string, i: int)
    requires 0 <= i < |parts|
    ensures Contains(Join(parts, sep), parts[i])
    decreases |parts|
  {
    if |parts| == 1 {
      assert Join(parts, sep) == parts[0] + "";
      ContainsPrefix(parts[0], "");
    } else if i == 0 {
      ContainsPrefix(parts[0], sep + Join(parts[1..], sep));
      assert Join(parts, sep) == parts[0] + (sep + Join(parts[1..], sep));
    } else {
      JoinContainsEach(parts[1..], sep, i - 1);
      ContainsInSuffix(parts[0] + sep, Join(parts[1..], sep), parts[i]);
    }
  }
}

=== FILE: wrappers.dfy ===
/** The optional value the component keeps for "which row id is being edited"
    (JavaScript `null` or a string). */
module Wrappers {

  datatype Option<+T> = None | Some(value: T)
}
